=== FILE: README.md ===
# Flow wallet API: transaction signing and job pool, in Dafny

This project models two pieces of a custodial wallet service for the Flow blockchain.

- **Transaction assembly and signing** (`New` in `transactions/transactions.go`).
  Given a proposer, a payer and an ordered list of authorizers, `New` does three things:
  - fills in the transaction's reference block, proposal key, payer, gas limit and authorizers;
  - has the right accounts sign the payload, and the payer sign the envelope, in the order the network requires;
  - completes the transaction record with the proposer address, the type and the transaction id.
  Both JSON responses are modelled too.
- **The job worker pool** (`jobs/jobs.go`).
  The model covers the job states, admission into a bounded queue (`AddJob`, `tryEnqueue`), the worker's `process` step, the synchronous `Wait`, and the workers draining the queue (`Stop`).
  Goroutines are removed: the pool is a record holding the queue, and each step is a pure function.

Foreign calls become opaque parameters:
- the Flow SDK's signer, transaction hash, `Hex()` renderings and `FormatAddress`, in the `Sdk` record;
- the job store's `InsertJob`/`UpdateJob`, in the `Store` record;
- each job's work function, as the `WorkOutcome` it produces.

Modules:
- `Wrappers`: `Option` and `Result`.
- `Hex`: the `%x` rendering of signature bytes and a decoder for it.
- `GoFmt`: what `fmt.Errorf` prints for a non-constant format string with no operands.
- `Transactions`: data model and `New`, written the way the source is written.
- `SignerRoles`: an independent statement of who signs what, in which order. It is proved equal to `New`, and the properties are proved on it.
- `TransactionJson`: the JSON responses.
- `Jobs`: states, jobs, `process`, `Wait`.
- `WorkerPool`: the pool, admission, draining, `Stop`.

Two behaviours of the code are worth stating plainly:
- On a work-function error, `process` still copies the carrier's result and transaction id into the job (jobs/jobs.go:176-177), whatever the work function left in the carrier. The job's result is therefore empty after an error only if the work function left the carrier empty.
- An authorizer listed twice signs the payload twice. The comment at transactions/transactions.go:162-163 promises to skip only authorizers that are also the proposer or the payer, and the loop at 161-171 does exactly that; repeated authorizers are not collapsed. `SignerRoles.RepeatedAuthorizerSignsTwice` shows this. `SignerRoles.DistinctAuthorizersSignPayloadOnce` proves that no address signs the payload twice when no authorizer address repeats.

## Model

| member | source | states |
|---|---|---|
| SignerRoles.AuthorizerPayloadSigners | transactions/transactions.go:160-171 | the authorizers that sign the payload are exactly those equal to neither the proposer nor the payer, kept in input order |
| SignerRoles.AuthorizerLoopRunsPlan | transactions/transactions.go:160-171 | the authorizer loop calls the signers of exactly those authorizers, in order, and stops at the first failure |
| Transactions.New | transactions/transactions.go:141-190 | the record is completed (formatted proposer address, given type, id of the signed transaction) exactly when no signer failed, and is returned untouched otherwise; its signing behaviour is stated by `SignerRoles.NewRunsPlan`, `NewSuccess`, `NewFailure` and `NewSetsUnsignedFields` |
| SignerRoles.NewRunsPlan | transactions/transactions.go:141-190 | `New` performs the signing plan (authorizers' payload signatures, then the proposer's unless it is the payer, then the payer's envelope signature); it completes the record exactly when every signer succeeded and otherwise returns it untouched |
| SignerRoles.RunPlanTrace | transactions/transactions.go:161-183 | the signer calls made are a prefix of the plan; on success they are the whole plan; on failure the last call is the one that failed, with the returned error, and no later signer is called |
| SignerRoles.RunPlanConsistent | transactions/transactions.go:161-183 | each component gains exactly one signature per successful call for that component, in call order, and nothing else in the transaction changes |
| SignerRoles.PlanComponents | transactions/transactions.go:173-183 | the plan's payload part is the payload signers; its envelope part is the payer alone, whatever the role overlap |
| SignerRoles.NewSetsUnsignedFields | transactions/transactions.go:149-158 | whatever the outcome, the transaction has the reference block, the proposal key (proposer address, key index, sequence number), the payer, gas limit 9999, and every authorizer's address appended in input order, including those that are also proposer or payer |
| SignerRoles.NewSuccess | transactions/transactions.go:160-189 | on success all planned signers were called in plan order; the payload carries one signature per payload signer, in order; the envelope carries exactly one new signature, the payer's; the record holds the formatted proposer address, the given type and the hash of the fully signed transaction |
| SignerRoles.NewFailure | transactions/transactions.go:164-187 | on failure the record's proposer address, type and id stay as they were, and the error is the failing signer's, returned at once |
| SignerRoles.SoleSignerSignsEnvelopeOnly | transactions/transactions.go:173-183 | proposer equal to payer with no authorizers: no payload signature and one envelope signature, the payer's |
| SignerRoles.SeparatePayerSignsEnvelope | transactions/transactions.go:173-183 | proposer different from payer with no authorizers: one payload signature, the proposer's, and one envelope signature, the payer's |
| SignerRoles.AuthorizerSignerCount | transactions/transactions.go:161-166 | an authorizer equal to the proposer or the payer adds no payload signature; any other address signs once per listing |
| SignerRoles.PayloadSignerCount | transactions/transactions.go:160-178 | per address: the payer's address never signs the payload; the proposer's signs it once if it is not the payer's; any other address signs once per listing as authorizer |
| SignerRoles.DistinctAuthorizersSignPayloadOnce | transactions/transactions.go:160-178 | with no repeated authorizer address, no address signs the payload twice |
| SignerRoles.RepeatedAuthorizerSignsTwice | transactions/transactions.go:161-171 | an authorizer listed twice signs the payload twice, because repeated authorizers are not collapsed |
| Hex.DecodeEncode | transactions/transactions.go:66 | the `%x` rendering of signature bytes can be read back to the same bytes |
| TransactionJson.SignaturesToJson | transactions/transactions.go:62-78 | the rendered signatures keep the count, the order, each address (through `Hex()`), each key index, and the signature bytes |
| TransactionJson.AuthorizersToJson | transactions/transactions.go:58-60 | the rendered authorizers keep their count and order |
| TransactionJson.SignedToJson | transactions/transactions.go:44-81 | the response copies the code, arguments and gas limit; renders the reference block id through the id's `Hex()`, the payer and the proposal key's address through `Hex()` and copies its key index and sequence number unchanged; and lists the authorizers and the payload and envelope signatures in their order, each entry as `AuthorizersToJson` and `SignaturesToJson` render it; that nothing is lost is stated by `SignedJsonDeterminesSigning` |
| TransactionJson.SignedJsonDeterminesSigning | transactions/transactions.go:44-81 | if `Hex()` is injective, two transactions with the same response have the same authorizers, signatures, payer, proposal key, gas limit, code and arguments |
| TransactionJson.NewSignedResponse | transactions/transactions.go:44-81 | after a successful `New`, the response shows the authorizers in input order, one payload signature per payload signer, one envelope signature and gas limit 9999 |
| TransactionJson.RecordToJson | transactions/transactions.go:131-139 | the response carries the record's transaction id and type; what they hold after `New` is stated by `NewRecordResponse` |
| TransactionJson.NewRecordResponse | transactions/transactions.go:131-139 | after a successful `New`, the record's response carries the given type and the id of that same signed transaction |
| Jobs.StateName | jobs/jobs.go:34-41 | each state is stored as a non-empty upper-case text; that the six texts are distinct is stated by `Jobs.StateNameParses` |
| Jobs.StateNameParses | jobs/jobs.go:34-41 | reading back a state's text gives that state, so no two states share a text |
| Jobs.ParseState | jobs/jobs.go:34-41 | each stored state text reads back to its state; any other text reads back to none |
| Jobs.Process | jobs/jobs.go:172-193 | the carrier's result and transaction id are copied on both paths; an error gives state `Error` with the error's text; success gives `Complete` with the error text kept; the final job is written to the store; nothing else in the job changes |
| Jobs.ProcessFollowsGraph | jobs/jobs.go:172-193 | processing an accepted job is an edge of the state graph into a terminal state (never `Failed`), and a failing store leaves the job unchanged |
| Jobs.Wait | jobs/jobs.go:86-97 | corrected: `Wait(false)` returns no error; `Wait(true)` keeps polling while the job is `Accepted`; otherwise it returns an error exactly when the state is `Error`, carrying the job's error text verbatim |
| Jobs.WaitAsWritten | jobs/jobs.go:86-97 | as written: `Wait(false)` returns no error; `Wait(true)` keeps polling while the job is `Accepted`; otherwise it returns an error exactly when the state is `Error`, but its message is the job's text interpreted as a `fmt` format string |
| Jobs.WaitAsWrittenMangles | jobs/jobs.go:92-94 | for the error text `100%`, the as-written `Wait` returns `100%!(NOVERB)` instead |
| Jobs.WaitAgreesWithoutPercent | jobs/jobs.go:92-94 | for an error text without `%`, the as-written `Wait` and the corrected one agree |
| Jobs.WaitReportsWorkError | jobs/jobs.go:86-97 | waiting on a processed job reports exactly the work function's error, or none |
| GoFmt.NoPercentUnchanged | jobs/jobs.go:93 | a format string with no `%` is printed as it is |
| GoFmt.PercentVerbMangled | jobs/jobs.go:93 | the error text `50%d` is printed as `50%!d(MISSING)` |
| GoFmt.TrailingPercent | jobs/jobs.go:93 | a `%`-free text followed by a bare `%` is printed as the text followed by `%!(NOVERB)` |
| GoFmt.PercentVerb | jobs/jobs.go:93 | a `%`-free text followed by `%` and a verb letter is printed as the text followed by `%!`, the letter and `(MISSING)` |
| WorkerPool.NewWorkerPool | jobs/jobs.go:99-109 | a new pool has an empty queue with the given capacity and worker count |
| WorkerPool.TryEnqueue | jobs/jobs.go:163-170 | enqueuing succeeds exactly when the queue holds fewer than `capacity` entries; the job then joins the tail; otherwise the pool is unchanged |
| WorkerPool.AddJob | jobs/jobs.go:127-156 | the job is created in `Init` and inserted before any enqueue; the job returned is that new job with the store's id, and only its state may differ (empty error, result and transaction id, no retries). A failed insert returns it in `Init` with the error and an unchanged queue. Otherwise the job is `Accepted` and appended with no error exactly when there is room; if not, it is `NoAvailableWorkers` with a queue-full error and the queue is unchanged. Every state change is an edge of the state graph and is written to the store |
| WorkerPool.AdmitAsWritten | jobs/jobs.go:137-148 | as written: the job is sent while still `Init` and set `Accepted` after the send; if `AddJob` assigns first, the worker leaves the job in a terminal state; if the worker runs first, the job ends `Accepted` |
| WorkerPool.AdmitAsWrittenLosesOutcome | jobs/jobs.go:137-148 | when the worker processes the job before `AddJob` sets `Accepted`, the work's terminal state is overwritten and `Wait(true)` keeps polling for ever |
| WorkerPool.AdmittedJobReportsOutcome | jobs/jobs.go:127-156 | corrected: the job is `Accepted` when it joins the queue and nothing writes its state after the send, so waiting on it after processing reports the work's outcome |
| WorkerPool.AdmittedJobCompletesClean | jobs/jobs.go:127-156 | an admitted job whose work succeeds ends `Complete` with the carrier's result and transaction id, an empty error text, and the id and work it was admitted with |
| WorkerPool.AddJobPreservesValid | jobs/jobs.go:127-156 | admission keeps the queue within capacity, with every queued job `Accepted` |
| WorkerPool.AddJobIgnoresUpdateFailure | jobs/jobs.go:140-155 | whatever `UpdateJob` answers, the pool, the returned job and the returned error are the same |
| WorkerPool.AdmissionControl | jobs/jobs.go:136-155 | in a run of submissions with no dequeues and no insert failures, exactly those that find room are accepted; every later one gets a queue-full error in `NoAvailableWorkers` |
| WorkerPool.Drain | jobs/jobs.go:111-124 | the workers leave at most the entries they found, and write each job they process to the store once, in order; that what is left is the untouched suffix after the entries taken is stated by `DrainRest`, and which entries they take and how each job ends by `DrainProcessed`, `TakenStops` and `DrainSummary` |
| WorkerPool.DrainRest | jobs/jobs.go:111-124 | the workers take entries from the front of the queue and leave the rest untouched |
| WorkerPool.DrainProcessed | jobs/jobs.go:116-121 | the jobs among the entries taken are processed in queue order, each exactly as `process` does |
| WorkerPool.TakenStops | jobs/jobs.go:116-119 | a nil entry stops the worker that takes it, and taking ends only when the queue is empty or every worker has stopped |
| WorkerPool.DrainFollowsGraph | jobs/jobs.go:116-121 | in a pool whose queued jobs were all admitted, every job a worker takes is `Accepted`, and processing it is an edge of the state graph out of `Accepted` |
| WorkerPool.DrainSummary | jobs/jobs.go:111-124 | processed jobs keep queue order and end `Complete` or `Error`, never `Failed`; with fewer nil entries than workers, every queued job is processed and the queue is left empty |
| WorkerPool.Stop | jobs/jobs.go:158-161 | stopping drains the queue. Processed jobs are in FIFO order and each ends `Complete` or `Error`. With fewer nil entries than workers, every queued job is processed |

## Left out

- Concurrency: goroutines, the `WaitGroup`, and channel closing are not modelled. Admission and draining are sequential steps. Draining is exact about which entries get dequeued, because the channel hands entries out in FIFO order. It says nothing about completion order across workers.
- Interleavings in general are not modelled. The one race that matters, between `AddJob`'s `Accepted` assignment and a worker, is modelled by `WorkerPool.AdmitAsWritten` for one job and reported under Findings; the rest of the model uses the corrected order, in which the job is `Accepted` before it joins the queue.
- WorkerPool.TryEnqueue: with capacity 0 the channel is unbuffered. Go's non-blocking send then succeeds when a worker is waiting to receive. The model never admits in that case, because there are no waiting goroutines.
- Jobs.Wait: the 10 ms sleep-and-poll loop is modelled as one observation of the job; `StillWaiting` means the call would keep polling.
- GoFmt.ErrorfNoOperands: only flags, decimal width and precision are modelled. Not covered: `*` width or precision, `[n]` argument indexes, and Go's cut-off for numbers above one million.
- Signing, hashing and rendering are opaque calls: `crypto.Signer`, `ID()`, `Hex()` and `FormatAddress`. Inside `SignPayload`, the SDK also tags each signature with a signer index and may re-sort the list. The model records signatures in the order `New` makes the calls.
- `ID()` cannot fail in the source, so the hash is modelled as a total function.
- `keys.Authorizer.Equals` is not in the modelled files. The model assumes it compares addresses.
- `NewFlowTransaction` and argument encoding (transactions/flow.go) are not modelled. `New` receives the transaction with its script and arguments already set.
- `Transaction.ToJSONResponse`: events and timestamps are not modelled. Neither is Go's `null` for an empty authorizer or signature slice in the JSON, which the model treats as an empty sequence.
- Not modelled: GORM persistence, `BeforeCreate` UUID generation, timestamps, soft deletion, the retry counter (never changed), `Job.ToJSONResponse` and logging. Job ids are whatever the opaque store assigns.
- Integer widths (`uint64` gas limit and sequence numbers, `int` key indexes) are left unbounded because no arithmetic is done on them.
- Other files are not part of this model: accounts/store_gorm.go, migrations/migrations.go, handlers/templates.go and the persistence test.

## Findings

| source | as written | input that shows it | evidently intended | confidence | as-written member | corrected member |
|---|---|---|---|---|---|---|
| jobs/jobs.go:93 | `fmt.Errorf(j.Error)` uses the job's error text as a format string | a job in state `Error` whose error text is `100%`: `Wait(true)` returns `100%!(NOVERB)`; `50%d` becomes `50%!d(MISSING)` | return the recorded text unchanged, e.g. `errors.New(j.Error)` | medium, not executed | Jobs.WaitAsWritten, Jobs.WaitAsWrittenMangles, GoFmt.PercentVerbMangled | Jobs.Wait, Jobs.WaitReportsWorkError |
| jobs/jobs.go:137-148 | `AddJob` sends the job on the channel while it is `Init` and sets `job.State = Accepted` only after the send | a worker takes the job at once and sets it `Complete` or `Error` before line 148 runs; line 148 then sets it back to `Accepted`, and `Wait(true)` polls for ever on a finished job | set the job `Accepted` before the send (and back to `NoAvailableWorkers` if the send fails) | low, depends on goroutine scheduling, not executed | WorkerPool.AdmitAsWritten, WorkerPool.AdmitAsWrittenLosesOutcome | WorkerPool.AddJob, WorkerPool.AdmittedJobReportsOutcome |

=== FILE: go_fmt.dfy ===
/** What Go's `fmt.Errorf(text)` produces when `text` is not a constant format
    string and no operands follow it: every `%` starts a directive, and with no
    operand to consume a directive prints a diagnostic instead of itself.
    A directive is `%`, then flags (`#0+- `), then a decimal width, then an
    optional `.` and decimal precision, then one verb character. Verb `%`
    prints a single `%`; any other verb `v` prints `%!v(MISSING)`; a text that
    ends before the verb prints `%!(NOVERB)`. */
module GoFmt {

  predicate IsFlag(c: char) {
    c == '#' || c == '0' || c == '+' || c == '-' || c == ' '
  }

  predicate IsDecimal(c: char) {
    '0' <= c <= '9'
  }

  /** The first position at or after `i` that does not hold a flag. */
  function SkipFlags(s: string, i: nat): (j: nat)
    requires i <= |s|
    ensures i <= j <= |s|
    ensures forall k :: i <= k < j ==> IsFlag(s[k])
    ensures j < |s| ==> !IsFlag(s[j])
    decreases |s| - i
  {
    if i < |s| && IsFlag(s[i]) then SkipFlags(s, i + 1) else i
  }

  /** The first position at or after `i` that does not hold a decimal digit. */
  function SkipDecimals(s: string, i: nat): (j: nat)
    requires i <= |s|
    ensures i <= j <= |s|
    ensures forall k :: i <= k < j ==> IsDecimal(s[k])
    ensures j < |s| ==> !IsDecimal(s[j])
    decreases |s| - i
  {
    if i < |s| && IsDecimal(s[i]) then SkipDecimals(s, i + 1) else i
  }

  /** Position of the verb of the directive whose text (after its `%`) starts at `i`:
      flags, then width, then a precision, which Go only reads when the `.` is not
      the last character. */
  function VerbPosition(s: string, i: nat): (v: nat)
    requires i <= |s|
    ensures i <= v <= |s|
  {
    var afterWidth := SkipDecimals(s, SkipFlags(s, i));
    if afterWidth + 1 < |s| && s[afterWidth] == '.' then SkipDecimals(s, afterWidth + 1)
    else afterWidth
  }

  /** The message of `fmt.Errorf(s)` with no operands. */
  function ErrorfNoOperands(s: string): (m: string)
    decreases |s|
  {
    if |s| == 0 then ""
    else if s[0] != '%' then [s[0]] + ErrorfNoOperands(s[1..])
    else
      var v := VerbPosition(s, 1);
      if v == |s| then "%!(NOVERB)"
      else if s[v] == '%' then "%" + ErrorfNoOperands(s[v + 1..])
      else "%!" + [s[v]] + "(MISSING)" + ErrorfNoOperands(s[v + 1..])
  }

  /** A text without `%` is printed as it is. */
  lemma {:induction false} NoPercentUnchanged(s: string)
    requires forall k :: 0 <= k < |s| ==> s[k] != '%'
    ensures ErrorfNoOperands(s) == s
  {
    if |s| > 0 {
      NoPercentUnchanged(s[1..]);
      assert [s[0]] + s[1..] == s;
    }
  }

  /** A `%`-free text followed by a bare `%` keeps the text and reports the missing verb. */
  lemma {:induction false} TrailingPercent(p: string)
    requires forall k :: 0 <= k < |p| ==> p[k] != '%'
    ensures ErrorfNoOperands(p + "%") == p + "%!(NOVERB)"
    decreases |p|
  {
    if |p| == 0 {
      assert p + "%" == "%";
      assert VerbPosition("%", 1) == 1;
    } else {
      TrailingPercent(p[1..]);
      assert (p + "%")[1..] == p[1..] + "%";
      assert [p[0]] + (p[1..] + "%!(NOVERB)") == p + "%!(NOVERB)";
    }
  }

  /** A `%`-free text followed by `%` and a verb letter keeps the text and reports the
      missing operand. */
  lemma {:induction false} PercentVerb(p: string, c: char)
    requires forall k :: 0 <= k < |p| ==> p[k] != '%'
    requires 'a' <= c <= 'z' || 'A' <= c <= 'Z'
    ensures ErrorfNoOperands(p + ['%', c]) == p + "%!" + [c] + "(MISSING)"
    decreases |p|
  {
    if |p| == 0 {
      assert p + ['%', c] == ['%', c];
      assert VerbPosition(['%', c], 1) == 1;
      assert ['%', c][2..] == [];
    } else {
      PercentVerb(p[1..], c);
      assert (p + ['%', c])[1..] == p[1..] + ['%', c];
      assert [p[0]] + (p[1..] + "%!" + [c] + "(MISSING)") == p + "%!" + [c] + "(MISSING)";
    }
  }

  /** A text ending in a bare `%` is not printed as it is. */
  lemma TrailingPercentMangled()
    ensures ErrorfNoOperands("100%") == "100%!(NOVERB)"
  {
    TrailingPercent("100");
    assert "100" + "%" == "100%";
  }

  /** A `%` followed by a letter reads as a verb missing its operand. */
  lemma PercentVerbMangled()
    ensures ErrorfNoOperands("50%d") == "50%!d(MISSING)"
  {
    PercentVerb("50", 'd');
    assert "50" + ['%', 'd'] == "50%d";
  }
}

=== FILE: hex.dfy ===
/** Bytes and their lower-case hexadecimal rendering, as Go's `fmt.Sprintf("%x", b)`
    prints a byte slice: two digits per byte, most significant nibble first,
    no prefix and no separator. */
module Hex {
  import opened Wrappers

  newtype byte = x: int | 0 <= x < 256

  const Digits: string := "0123456789abcdef"

  /** The hexadecimal digit for a nibble. */
  function Digit(n: nat): (c: char)
    requires n < 16
    ensures IsDigit(c)
  {
    Digits[n]
  }

  predicate IsDigit(c: char) {
    '0' <= c <= '9' || 'a' <= c <= 'f'
  }

  /** The nibble a lower-case hexadecimal digit stands for; `None` for any other character. */
  function DigitValue(c: char): (r: Option<nat>)
    ensures r.Some? <==> IsDigit(c)
    ensures r.Some? ==> r.value < 16 && Digits[r.value] == c
  {
    if '0' <= c <= '9' then Some(c as nat - '0' as nat)
    else if 'a' <= c <= 'f' then Some(c as nat - 'a' as nat + 10)
    else None
  }

  function Encode(bs: seq<byte>): (s: string)
    ensures |s| == 2 * |bs|
    ensures forall i :: 0 <= i < |s| ==> IsDigit(s[i])
  {
    if |bs| == 0 then ""
    else [Digit(bs[0] as nat / 16), Digit(bs[0] as nat % 16)] + Encode(bs[1..])
  }

  /** Reads back what `Encode` writes; `None` on an odd length or a foreign character. */
  function Decode(s: string): (r: Option<seq<byte>>)
    ensures r.Some? ==> 2 * |r.value| == |s|
    decreases |s|
  {
    if |s| == 0 then Some([])
    else if |s| == 1 then None
    else
      match (DigitValue(s[0]), DigitValue(s[1]), Decode(s[2..]))
      case (Some(hi), Some(lo), Some(rest)) => Some([(hi * 16 + lo) as byte] + rest)
      case _ => None
  }

  lemma DigitRoundTrip(n: nat)
    requires n < 16
    ensures DigitValue(Digit(n)) == Some(n)
  {
  }

  /** Decoding a two-digit prefix yields one byte in front of the rest. */
  lemma DecodeCons(hi: nat, lo: nat, rest: string, tail: seq<byte>)
    requires hi < 16 && lo < 16
    requires Decode(rest) == Some(tail)
    ensures Decode([Digit(hi), Digit(lo)] + rest) == Some([(hi * 16 + lo) as byte] + tail)
  {
    var s := [Digit(hi), Digit(lo)] + rest;
    assert s[0] == Digit(hi) && s[1] == Digit(lo) && s[2..] == rest;
    DigitRoundTrip(hi);
    DigitRoundTrip(lo);
  }

  /** Rendering loses nothing: the bytes can be recovered from their hexadecimal text. */
  lemma {:induction false} DecodeEncode(bs: seq<byte>)
    ensures Decode(Encode(bs)) == Some(bs)
  {
    if |bs| > 0 {
      var b := bs[0] as nat;
      DecodeEncode(bs[1..]);
      DecodeCons(b / 16, b % 16, Encode(bs[1..]), bs[1..]);
      assert (b / 16 * 16 + b % 16) as byte == bs[0];
      assert [bs[0]] + bs[1..] == bs;
    }
  }
}

=== FILE: jobs.dfy ===
/** A job: one unit of asynchronous work, its state machine, the transition a
    worker applies once the work has run (`process`), and the synchronous wait.

    The work function itself is foreign code: a job carries an opaque handle to
    it, and what it does when run enters as a `WorkOutcome`. The job store is a
    pair of opaque calls that may fail. */
module Jobs {
  import opened Wrappers
  import GoFmt

  datatype State = Init | Accepted | NoAvailableWorkers | Error | Complete | Failed

  /** The text each state is stored and reported as. */
  function StateName(s: State): (name: string)
    ensures |name| >= 4
    ensures forall k :: 0 <= k < |name| ==> name[k] == '_' || 'A' <= name[k] <= 'Z'
  {
    match s
    case Init => "INIT"
    case Accepted => "ACCEPTED"
    case NoAvailableWorkers => "NO_AVAILABLE_WORKERS"
    case Error => "ERROR"
    case Complete => "COMPLETE"
    case Failed => "FAILED"
  }

  /** Reads a stored state back; `None` for text that names no state. */
  function ParseState(name: string): (r: Option<State>)
    ensures r.Some? ==> StateName(r.value) == name
    ensures r.None? <==> forall s :: StateName(s) != name
  {
    if name == "INIT" then Some(Init)
    else if name == "ACCEPTED" then Some(Accepted)
    else if name == "NO_AVAILABLE_WORKERS" then Some(NoAvailableWorkers)
    else if name == "ERROR" then Some(Error)
    else if name == "COMPLETE" then Some(Complete)
    else if name == "FAILED" then Some(Failed)
    else None
  }

  /** Every state's text reads back as that state, so no two states share a text. */
  lemma StateNameParses(s: State)
    ensures ParseState(StateName(s)) == Some(s)
  {
  }

  /** The state graph: a new job is admitted or turned away; an admitted job completes
      or errs. Nothing leaves a terminal state and nothing enters `Failed`. */
  predicate Transition(from: State, to: State) {
    || (from == Init && (to == Accepted || to == NoAvailableWorkers))
    || (from == Accepted && (to == Complete || to == Error))
  }

  predicate Terminal(s: State) {
    s == NoAvailableWorkers || s == Complete || s == Error
  }

  /** Opaque job identifier; 0 is the nil identifier a job has before it is stored. */
  type JobId = nat
  /** Opaque handle of a job's work function. */
  type WorkId = nat

  datatype Job = Job(
    id: JobId,
    jobType: string,
    state: State,
    error: string,
    result: string,
    transactionId: string,
    retryCount: int,
    work: WorkId)

  /** The carrier the work function fills in. */
  datatype Result = Result(result: string, transactionId: string)

  /** What running a work function yields: the carrier as it left it, and its error if any. */
  datatype WorkOutcome = WorkOutcome(carrier: Result, err: Option<string>)

  /** On insert the store gives the job its identifier (or leaves the nil one) and may fail. */
  datatype InsertOutcome = InsertOutcome(id: JobId, err: Option<string>)

  datatype Store = Store(insertJob: Job -> InsertOutcome, updateJob: Job -> Option<string>)

  /** A call made to the store, with the job as written and the store's answer. A failed
      update is only logged, so the log is where it shows. */
  datatype StoreCall = Insert(job: Job, err: Option<string>) | Update(job: Job, err: Option<string>)

  function UpdateCall(store: Store, job: Job): StoreCall {
    Update(job, store.updateJob(job))
  }

  /** A fresh job for the given work function, in state `Init`, all other fields zero. */
  function NewJob(work: WorkId): Job {
    Job(0, "", Init, "", "", "", 0, work)
  }

  datatype Processed = Processed(job: Job, call: StoreCall)

  /** `process`: the carrier's result and transaction id are copied into the job whatever
      the outcome; an error moves the job to `Error` with the error's text, success moves
      it to `Complete` keeping its error text; the final job is written to the store. */
  function Process(job: Job, outcome: WorkOutcome, store: Store): (r: Processed)
    ensures r.job.result == outcome.carrier.result
    ensures r.job.transactionId == outcome.carrier.transactionId
    ensures r.job.state == Error <==> outcome.err.Some?
    ensures r.job.state == Complete <==> outcome.err.None?
    ensures r.job.error == if outcome.err.Some? then outcome.err.value else job.error
    ensures r.job.(state := job.state, error := job.error, result := job.result, transactionId := job.transactionId) == job
    ensures r.call == UpdateCall(store, r.job)
  {
    var copied := job.(result := outcome.carrier.result, transactionId := outcome.carrier.transactionId);
    if outcome.err.Some? then
      var failed := copied.(state := Error, error := outcome.err.value);
      Processed(failed, UpdateCall(store, failed))
    else
      var done := copied.(state := Complete);
      Processed(done, UpdateCall(store, done))
  }

  /** Processing an admitted job is a transition of the state graph into a terminal state,
      and a failing store changes nothing about the job. */
  lemma ProcessFollowsGraph(job: Job, outcome: WorkOutcome, store: Store, other: Store)
    requires job.state == Accepted
    ensures Transition(job.state, Process(job, outcome, store).job.state)
    ensures Terminal(Process(job, outcome, store).job.state)
    ensures Process(job, outcome, store).job == Process(job, outcome, other).job
  {
  }

  /** Result of `Wait`: it either returns, with an error or not, or is still polling
      because the job it observes is `Accepted`. */
  datatype WaitOutcome = StillWaiting | Returned(err: Option<string>)

  /** `Wait` with the job's error text passed on as it is. */
  function Wait(wait: bool, job: Job): (r: WaitOutcome)
    ensures !wait ==> r == Returned(None)
    ensures wait ==> (r == StillWaiting <==> job.state == Accepted)
    ensures r.Returned? && r.err.Some? <==> wait && job.state == Error
    ensures r.Returned? && r.err.Some? ==> r.err.value == job.error
  {
    if !wait then Returned(None)
    else if job.state == Accepted then StillWaiting
    else if job.state == Error then Returned(Some(job.error))
    else Returned(None)
  }

  /** `Wait` as the source writes it: the error text is handed to `fmt.Errorf` as its
      format string, so every `%` in it is read as the start of a directive. */
  function WaitAsWritten(wait: bool, job: Job): (r: WaitOutcome)
    ensures !wait ==> r == Returned(None)
    ensures wait ==> (r == StillWaiting <==> job.state == Accepted)
    ensures r.Returned? && r.err.Some? <==> wait && job.state == Error
    ensures r.Returned? && r.err.Some? ==> r.err.value == GoFmt.ErrorfNoOperands(job.error)
  {
    if !wait then Returned(None)
    else if job.state == Accepted then StillWaiting
    else if job.state == Error then Returned(Some(GoFmt.ErrorfNoOperands(job.error)))
    else Returned(None)
  }

  /** An error text containing `%` does not come back from `Wait` as it was recorded. */
  lemma WaitAsWrittenMangles(job: Job)
    requires job.state == Error && job.error == "100%"
    ensures WaitAsWritten(true, job) == Returned(Some("100%!(NOVERB)"))
    ensures WaitAsWritten(true, job) != Returned(Some(job.error))
  {
    GoFmt.TrailingPercentMangled();
  }

  /** Without a `%` in the error text the two readings of `Wait` agree. */
  lemma WaitAgreesWithoutPercent(wait: bool, job: Job)
    requires forall k :: 0 <= k < |job.error| ==> job.error[k] != '%'
    ensures WaitAsWritten(wait, job) == Wait(wait, job)
  {
    GoFmt.NoPercentUnchanged(job.error);
  }

  /** Waiting on a processed job reports exactly the work function's error. */
  lemma WaitReportsWorkError(job: Job, outcome: WorkOutcome, store: Store)
    ensures Wait(true, Process(job, outcome, store).job) == Returned(outcome.err)
  {
  }
}

=== FILE: signer_roles.dfy ===
/** The signer roles of a transaction stated on their own, independently of how
    `New` walks through them: who signs the payload, who signs the envelope, in
    which order. `NewRunsPlan` shows that `New` performs exactly this plan. */
module SignerRoles {
  import opened Wrappers
  import opened Transactions

  /** The authorizers that sign the payload themselves: those equal to neither the
      proposer nor the payer, in input order, duplicates kept. */
  function AuthorizerPayloadSigners(authorizers: seq<Authorizer>, proposer: Authorizer, payer: Authorizer)
    : (r: seq<Authorizer>)
    ensures |r| <= |authorizers|
    ensures forall i :: 0 <= i < |r| ==> !Equals(r[i], proposer) && !Equals(r[i], payer)
    ensures forall i :: 0 <= i < |r| ==> r[i] in authorizers
    ensures forall a :: a in authorizers && !Equals(a, proposer) && !Equals(a, payer) ==> a in r
  {
    if |authorizers| == 0 then []
    else
      var rest := AuthorizerPayloadSigners(authorizers[1..], proposer, payer);
      var a := authorizers[0];
      assert forall b :: b in authorizers ==> b == a || b in authorizers[1..];
      if Equals(a, proposer) || Equals(a, payer) then rest else [a] + rest
  }

  /** Everyone who signs the payload, in signing order: the authorizers above, then the
      proposer unless it is also the payer. */
  function PayloadSigners(proposer: Authorizer, payer: Authorizer, authorizers: seq<Authorizer>): seq<Authorizer> {
    AuthorizerPayloadSigners(authorizers, proposer, payer) + (if Equals(proposer, payer) then [] else [proposer])
  }

  function PayloadActions(signers: seq<Authorizer>): (r: seq<SignAction>)
    ensures |r| == |signers|
    ensures forall i :: 0 <= i < |r| ==> r[i] == PayloadAction(signers[i])
  {
    if |signers| == 0 then [] else [PayloadAction(signers[0])] + PayloadActions(signers[1..])
  }

  /** The whole signing plan: all payload signatures, then the payer's single envelope signature. */
  function Plan(proposer: Authorizer, payer: Authorizer, authorizers: seq<Authorizer>): seq<SignAction> {
    PayloadActions(PayloadSigners(proposer, payer, authorizers)) + [EnvelopeAction(payer)]
  }

  /** Carry out a plan in order, stopping at the first signer that fails. */
  function RunPlan(st: Signing, plan: seq<SignAction>, sdk: Sdk): Signing
    requires st.err.None?
    decreases |plan|
  {
    if |plan| == 0 then st
    else
      var next := Attempt(st, plan[0], sdk);
      if next.err.Some? then next else RunPlan(next, plan[1..], sdk)
  }

  /** Running two plans back to back is running their concatenation. */
  lemma {:induction false} RunPlanAppend(st: Signing, p1: seq<SignAction>, p2: seq<SignAction>, sdk: Sdk)
    requires st.err.None?
    ensures RunPlan(st, p1 + p2, sdk)
         == (var s1 := RunPlan(st, p1, sdk); if s1.err.Some? then s1 else RunPlan(s1, p2, sdk))
    decreases |p1|
  {
    if |p1| > 0 {
      assert (p1 + p2)[0] == p1[0];
      assert (p1 + p2)[1..] == p1[1..] + p2;
      var next := Attempt(st, p1[0], sdk);
      if next.err.None? {
        RunPlanAppend(next, p1[1..], p2, sdk);
      }
    } else {
      assert p1 + p2 == p2;
    }
  }

  /** The authorizer loop of `New` carries out the authorizers' part of the plan. */
  lemma {:induction false} AuthorizerLoopRunsPlan(st: Signing, authorizers: seq<Authorizer>,
                                                 proposer: Authorizer, payer: Authorizer, sdk: Sdk)
    requires st.err.None?
    ensures SignAuthorizerPayloads(st, authorizers, proposer, payer, sdk)
         == RunPlan(st, PayloadActions(AuthorizerPayloadSigners(authorizers, proposer, payer)), sdk)
    decreases |authorizers|
  {
    if |authorizers| > 0 {
      var a := authorizers[0];
      var rest := AuthorizerPayloadSigners(authorizers[1..], proposer, payer);
      if Equals(a, proposer) || Equals(a, payer) {
        AuthorizerLoopRunsPlan(st, authorizers[1..], proposer, payer, sdk);
      } else {
        var acts := PayloadActions([a] + rest);
        assert acts[0] == PayloadAction(a);
        assert acts[1..] == PayloadActions(rest);
        var next := Attempt(st, PayloadAction(a), sdk);
        if next.err.None? {
          AuthorizerLoopRunsPlan(next, authorizers[1..], proposer, payer, sdk);
        }
      }
    }
  }

  /** The payload actions of two signer lists in a row are those of each, in a row. */
  lemma PayloadActionsAppend(a: seq<Authorizer>, b: seq<Authorizer>)
    ensures PayloadActions(a + b) == PayloadActions(a) + PayloadActions(b)
  {
    var whole := PayloadActions(a + b);
    var parts := PayloadActions(a) + PayloadActions(b);
    assert |whole| == |parts|;
    forall i | 0 <= i < |whole|
      ensures whole[i] == parts[i]
    {
      if i < |a| {
        assert (a + b)[i] == a[i];
      } else {
        assert (a + b)[i] == b[i - |a|];
      }
    }
  }

  /** The plan in three parts: the authorizers' payload actions, the proposer's payload
      action if any, and the payer's envelope action. */
  lemma PlanParts(proposer: Authorizer, payer: Authorizer, authorizers: seq<Authorizer>)
    ensures var own := if Equals(proposer, payer) then [] else [PayloadAction(proposer)];
      Plan(proposer, payer, authorizers)
      == PayloadActions(AuthorizerPayloadSigners(authorizers, proposer, payer)) + (own + [EnvelopeAction(payer)])
  {
    var auth := AuthorizerPayloadSigners(authorizers, proposer, payer);
    var own := if Equals(proposer, payer) then [] else [proposer];
    var ownActs := if Equals(proposer, payer) then [] else [PayloadAction(proposer)];
    PayloadActionsAppend(auth, own);
    assert PayloadActions(own) == ownActs;
    assert (PayloadActions(auth) + ownActs) + [EnvelopeAction(payer)]
        == PayloadActions(auth) + (ownActs + [EnvelopeAction(payer)]);
  }

  /** After the authorizers: the proposer's payload action if any, then the payer's
      envelope action, is what the tail of `New` does. */
  lemma NewTailRunsPlan(st: Signing, proposer: Authorizer, payer: Authorizer, sdk: Sdk)
    requires st.err.None?
    ensures var own := if Equals(proposer, payer) then [] else [PayloadAction(proposer)];
      var afterProposer := if !Equals(proposer, payer) then Attempt(st, PayloadAction(proposer), sdk) else st;
      RunPlan(st, own + [EnvelopeAction(payer)], sdk)
      == if afterProposer.err.Some? then afterProposer else Attempt(afterProposer, EnvelopeAction(payer), sdk)
  {
    var own := if Equals(proposer, payer) then [] else [PayloadAction(proposer)];
    RunPlanAppend(st, own, [EnvelopeAction(payer)], sdk);
    assert [EnvelopeAction(payer)][1..] == [];
    if !Equals(proposer, payer) {
      assert own[1..] == [];
    }
  }

  /** `New` signs exactly according to the plan; it completes the record if and only if
      every signer in the plan succeeded, and otherwise hands back the record untouched. */
  lemma NewRunsPlan(record: Transaction, referenceBlockId: Identifier, tx: FlowTx, tType: Type,
                    proposer: Authorizer, payer: Authorizer, authorizers: seq<Authorizer>, sdk: Sdk)
    ensures var r := New(record, referenceBlockId, tx, tType, proposer, payer, authorizers, sdk);
            && r.signing == RunPlan(Signing(Prepare(tx, referenceBlockId, proposer, payer, authorizers), [], None),
                                    Plan(proposer, payer, authorizers), sdk)
            && (r.err().Some? ==> r.record == record)
            && (r.err().None? ==>
                  r.record == record.(proposerAddress := sdk.formatAddress(proposer.address),
                                      transactionType := tType,
                                      transactionId := sdk.idHex(sdk.id(r.tx()))))
  {
    var start := Signing(Prepare(tx, referenceBlockId, proposer, payer, authorizers), [], None);
    var authActs := PayloadActions(AuthorizerPayloadSigners(authorizers, proposer, payer));
    var own := if Equals(proposer, payer) then [] else [PayloadAction(proposer)];
    AuthorizerLoopRunsPlan(start, authorizers, proposer, payer, sdk);
    PlanParts(proposer, payer, authorizers);
    RunPlanAppend(start, authActs, own + [EnvelopeAction(payer)], sdk);
    var s1 := RunPlan(start, authActs, sdk);
    if s1.err.None? {
      NewTailRunsPlan(s1, proposer, payer, sdk);
    }
  }

  /** The actions of one component, in order. */
  function OfComponent(actions: seq<SignAction>, c: Component): (r: seq<SignAction>)
    ensures |r| <= |actions|
    ensures forall i :: 0 <= i < |r| ==> r[i].component == c
  {
    if |actions| == 0 then []
    else (if actions[0].component == c then [actions[0]] else []) + OfComponent(actions[1..], c)
  }

  lemma {:induction false} OfComponentAppend(actions: seq<SignAction>, a: SignAction, c: Component)
    ensures OfComponent(actions + [a], c) == OfComponent(actions, c) + (if a.component == c then [a] else [])
  {
    if |actions| == 0 {
      assert [a][1..] == [];
    } else {
      var head := if actions[0].component == c then [actions[0]] else [];
      assert (actions + [a])[0] == actions[0];
      assert (actions + [a])[1..] == actions[1..] + [a];
      OfComponentAppend(actions[1..], a, c);
      assert OfComponent(actions + [a], c) == head + OfComponent(actions[1..] + [a], c);
    }
  }

  /** Signatures made by the given actions, one each and in the same order. */
  predicate SignedBy(sigs: seq<TxSignature>, actions: seq<SignAction>) {
    && |sigs| == |actions|
    && forall i :: 0 <= i < |sigs| ==> sigs[i].address == actions[i].address && sigs[i].keyIndex == actions[i].keyIndex
  }

  /** Everything but the signatures is the same. */
  predicate SameUnsigned(a: FlowTx, b: FlowTx) {
    a.(payloadSignatures := [], envelopeSignatures := []) == b.(payloadSignatures := [], envelopeSignatures := [])
  }

  /** The signer calls that succeeded: all attempted ones but the failing last one. */
  function Succeeded(st: Signing): seq<SignAction> {
    if st.err.Some? && |st.attempted| > 0 then st.attempted[..|st.attempted| - 1] else st.attempted
  }

  /** `now` is `before` followed by one signature per action, in order. */
  predicate Extends(before: seq<TxSignature>, now: seq<TxSignature>, actions: seq<SignAction>) {
    && |before| <= |now|
    && now[..|before|] == before
    && SignedBy(now[|before|..], actions)
  }

  lemma ExtendsStart(sigs: seq<TxSignature>)
    ensures Extends(sigs, sigs, [])
  {
    assert sigs[|sigs|..] == [];
  }

  lemma ExtendsAppend(before: seq<TxSignature>, now: seq<TxSignature>, actions: seq<SignAction>,
                      s: TxSignature, a: SignAction)
    requires Extends(before, now, actions)
    requires s.address == a.address && s.keyIndex == a.keyIndex
    ensures Extends(before, now + [s], actions + [a])
  {
    assert (now + [s])[..|before|] == now[..|before|];
    assert (now + [s])[|before|..] == now[|before|..] + [s];
  }

  /** Signing so far started from `base` and has added to each component exactly the
      signatures of its successful calls, in call order. */
  predicate Consistent(base: FlowTx, st: Signing) {
    && SameUnsigned(base, st.tx)
    && Extends(base.payloadSignatures, st.tx.payloadSignatures, OfComponent(Succeeded(st), Payload))
    && Extends(base.envelopeSignatures, st.tx.envelopeSignatures, OfComponent(Succeeded(st), Envelope))
  }

  lemma AttemptConsistent(base: FlowTx, st: Signing, action: SignAction, sdk: Sdk)
    requires st.err.None? && Consistent(base, st)
    ensures Consistent(base, Attempt(st, action, sdk))
  {
    var r := Attempt(st, action, sdk);
    if r.err.None? {
      var s := TxSignature(action.address, action.keyIndex, sdk.sign(action, st.tx).value);
      OfComponentAppend(st.attempted, action, Payload);
      OfComponentAppend(st.attempted, action, Envelope);
      assert Succeeded(r) == st.attempted + [action];
      if action.component == Payload {
        ExtendsAppend(base.payloadSignatures, st.tx.payloadSignatures, OfComponent(st.attempted, Payload), s, action);
      } else {
        ExtendsAppend(base.envelopeSignatures, st.tx.envelopeSignatures, OfComponent(st.attempted, Envelope), s, action);
      }
    } else {
      assert Succeeded(r) == st.attempted;
    }
  }

  /** A plan is carried out as a prefix of itself: every call before the last succeeded,
      no call after a failure is made, and the failing call is the last one made. */
  lemma {:induction false} RunPlanTrace(st: Signing, plan: seq<SignAction>, sdk: Sdk)
    requires st.err.None?
    ensures var r := RunPlan(st, plan, sdk);
            && |st.attempted| <= |r.attempted| <= |st.attempted| + |plan|
            && r.attempted == st.attempted + plan[..|r.attempted| - |st.attempted|]
            && (r.err.None? ==> r.attempted == st.attempted + plan)
            && (r.err.Some? ==> |r.attempted| > |st.attempted|
                                && sdk.sign(r.attempted[|r.attempted| - 1], r.tx) == Failure(r.err.value))
    decreases |plan|
  {
    if |plan| > 0 {
      var next := Attempt(st, plan[0], sdk);
      if next.err.None? {
        RunPlanTrace(next, plan[1..], sdk);
        var r := RunPlan(next, plan[1..], sdk);
        var k := |r.attempted| - |next.attempted|;
        assert [plan[0]] + plan[1..][..k] == plan[..k + 1];
        assert r.attempted == st.attempted + ([plan[0]] + plan[1..][..k]);
      } else {
        assert plan[..1] == [plan[0]];
      }
    } else {
      assert plan[..0] == [];
    }
  }

  /** The signatures on the transaction are those of the successful calls, in order. */
  lemma {:induction false} RunPlanConsistent(base: FlowTx, st: Signing, plan: seq<SignAction>, sdk: Sdk)
    requires st.err.None? && Consistent(base, st)
    ensures Consistent(base, RunPlan(st, plan, sdk))
    decreases |plan|
  {
    if |plan| > 0 {
      AttemptConsistent(base, st, plan[0], sdk);
      var next := Attempt(st, plan[0], sdk);
      if next.err.None? {
        RunPlanConsistent(base, next, plan[1..], sdk);
      }
    }
  }

  lemma {:induction false} PayloadActionsArePayload(signers: seq<Authorizer>)
    ensures OfComponent(PayloadActions(signers), Payload) == PayloadActions(signers)
    ensures OfComponent(PayloadActions(signers), Envelope) == []
  {
    if |signers| > 0 {
      assert PayloadActions(signers)[1..] == PayloadActions(signers[1..]);
      PayloadActionsArePayload(signers[1..]);
    }
  }

  /** The plan's payload part is the payload signers; its envelope part is the payer alone. */
  lemma PlanComponents(proposer: Authorizer, payer: Authorizer, authorizers: seq<Authorizer>)
    ensures OfComponent(Plan(proposer, payer, authorizers), Payload) == PayloadActions(PayloadSigners(proposer, payer, authorizers))
    ensures OfComponent(Plan(proposer, payer, authorizers), Envelope) == [EnvelopeAction(payer)]
  {
    var acts := PayloadActions(PayloadSigners(proposer, payer, authorizers));
    PayloadActionsArePayload(PayloadSigners(proposer, payer, authorizers));
    OfComponentAppend(acts, EnvelopeAction(payer), Payload);
    OfComponentAppend(acts, EnvelopeAction(payer), Envelope);
  }

  lemma StartConsistent(base: FlowTx)
    ensures Consistent(base, Signing(base, [], None))
  {
    ExtendsStart(base.payloadSignatures);
    ExtendsStart(base.envelopeSignatures);
  }

  /** What `New` sets before any signer is called holds whatever the outcome: reference
      block, proposal key, payer, the fixed gas limit, and every authorizer's address
      in input order, including those that are also proposer or payer. */
  lemma NewSetsUnsignedFields(record: Transaction, referenceBlockId: Identifier, tx: FlowTx, tType: Type,
                              proposer: Authorizer, payer: Authorizer, authorizers: seq<Authorizer>, sdk: Sdk)
    ensures var r := New(record, referenceBlockId, tx, tType, proposer, payer, authorizers, sdk);
            && r.tx().script == tx.script
            && r.tx().arguments == tx.arguments
            && r.tx().referenceBlockId == referenceBlockId
            && r.tx().proposalKey == ProposalKey(proposer.address, proposer.key.index, proposer.key.sequenceNumber)
            && r.tx().payer == payer.address
            && r.tx().gasLimit == MaxGasLimit == 9999
            && r.tx().authorizers == tx.authorizers + Addresses(authorizers)
  {
    var prepared := Prepare(tx, referenceBlockId, proposer, payer, authorizers);
    NewRunsPlan(record, referenceBlockId, tx, tType, proposer, payer, authorizers, sdk);
    StartConsistent(prepared);
    RunPlanConsistent(prepared, Signing(prepared, [], None), Plan(proposer, payer, authorizers), sdk);
  }

  /** On success every signer of the plan was called, in plan order; the payload carries one
      new signature per payload signer in that order, the envelope exactly one new signature,
      the payer's; and the record holds the formatted proposer address, the given type and
      the id of the fully signed transaction. */
  lemma NewSuccess(record: Transaction, referenceBlockId: Identifier, tx: FlowTx, tType: Type,
                   proposer: Authorizer, payer: Authorizer, authorizers: seq<Authorizer>, sdk: Sdk)
    ensures var r := New(record, referenceBlockId, tx, tType, proposer, payer, authorizers, sdk);
            var p := |tx.payloadSignatures|;
            var e := |tx.envelopeSignatures|;
            r.err().None? ==>
              && r.signing.attempted == Plan(proposer, payer, authorizers)
              && p <= |r.tx().payloadSignatures|
              && r.tx().payloadSignatures[..p] == tx.payloadSignatures
              && SignedBy(r.tx().payloadSignatures[p..], PayloadActions(PayloadSigners(proposer, payer, authorizers)))
              && |r.tx().envelopeSignatures| == e + 1
              && r.tx().envelopeSignatures[..e] == tx.envelopeSignatures
              && r.tx().envelopeSignatures[e].address == payer.address
              && r.tx().envelopeSignatures[e].keyIndex == payer.key.index
              && r.record.proposerAddress == sdk.formatAddress(proposer.address)
              && r.record.transactionType == tType
              && r.record.transactionId == sdk.idHex(sdk.id(r.tx()))
              && r.record.code == record.code
              && r.record.arguments == record.arguments
  {
    var prepared := Prepare(tx, referenceBlockId, proposer, payer, authorizers);
    var start := Signing(prepared, [], None);
    var plan := Plan(proposer, payer, authorizers);
    NewRunsPlan(record, referenceBlockId, tx, tType, proposer, payer, authorizers, sdk);
    StartConsistent(prepared);
    RunPlanConsistent(prepared, start, plan, sdk);
    RunPlanTrace(start, plan, sdk);
    PlanComponents(proposer, payer, authorizers);
    var r := New(record, referenceBlockId, tx, tType, proposer, payer, authorizers, sdk);
    if r.err().None? {
      var e := |tx.envelopeSignatures|;
      assert Succeeded(r.signing) == plan;
      assert SignedBy(r.tx().envelopeSignatures[e..], [EnvelopeAction(payer)]);
      assert r.tx().envelopeSignatures[e..][0] == r.tx().envelopeSignatures[e];
    }
  }

  /** On failure the record is handed back untouched; the calls made are a non-empty prefix
      of the plan, the last of them is the one that failed, with the error `New` returns,
      and no later signer was called. */
  lemma NewFailure(record: Transaction, referenceBlockId: Identifier, tx: FlowTx, tType: Type,
                   proposer: Authorizer, payer: Authorizer, authorizers: seq<Authorizer>, sdk: Sdk)
    ensures var r := New(record, referenceBlockId, tx, tType, proposer, payer, authorizers, sdk);
            var plan := Plan(proposer, payer, authorizers);
            var n := |r.signing.attempted|;
            r.err().Some? ==>
              && r.record == record
              && 0 < n <= |plan|
              && r.signing.attempted == plan[..n]
              && sdk.sign(plan[n - 1], r.tx()) == Failure(r.err().value)
  {
    var prepared := Prepare(tx, referenceBlockId, proposer, payer, authorizers);
    NewRunsPlan(record, referenceBlockId, tx, tType, proposer, payer, authorizers, sdk);
    RunPlanTrace(Signing(prepared, [], None), Plan(proposer, payer, authorizers), sdk);
  }

  /** Proposer and payer the same account, no authorizers: no payload signature and one
      envelope signature, the payer's. */
  lemma SoleSignerSignsEnvelopeOnly(record: Transaction, referenceBlockId: Identifier, tx: FlowTx, tType: Type,
                                    proposer: Authorizer, payer: Authorizer, sdk: Sdk)
    requires Equals(proposer, payer)
    requires tx.payloadSignatures == [] && tx.envelopeSignatures == []
    ensures var r := New(record, referenceBlockId, tx, tType, proposer, payer, [], sdk);
            r.err().None? ==>
              && r.tx().payloadSignatures == []
              && |r.tx().envelopeSignatures| == 1
              && r.tx().envelopeSignatures[0].address == payer.address
  {
    NewSuccess(record, referenceBlockId, tx, tType, proposer, payer, [], sdk);
    assert AuthorizerPayloadSigners([], proposer, payer) == [];
    assert PayloadSigners(proposer, payer, []) == [];
  }

  /** Proposer and payer different, no authorizers: one payload signature, the proposer's,
      and one envelope signature, the payer's. */
  lemma SeparatePayerSignsEnvelope(record: Transaction, referenceBlockId: Identifier, tx: FlowTx, tType: Type,
                                   proposer: Authorizer, payer: Authorizer, sdk: Sdk)
    requires !Equals(proposer, payer)
    requires tx.payloadSignatures == [] && tx.envelopeSignatures == []
    ensures var r := New(record, referenceBlockId, tx, tType, proposer, payer, [], sdk);
            r.err().None? ==>
              && |r.tx().payloadSignatures| == 1
              && r.tx().payloadSignatures[0].address == proposer.address
              && r.tx().payloadSignatures[0].keyIndex == proposer.key.index
              && |r.tx().envelopeSignatures| == 1
              && r.tx().envelopeSignatures[0].address == payer.address
  {
    NewSuccess(record, referenceBlockId, tx, tType, proposer, payer, [], sdk);
    assert AuthorizerPayloadSigners([], proposer, payer) == [];
    assert PayloadSigners(proposer, payer, []) == [proposer];
    var r := New(record, referenceBlockId, tx, tType, proposer, payer, [], sdk);
    assert r.tx().payloadSignatures[0..] == r.tx().payloadSignatures;
  }

  /** How many of the given accounts have address `x`. */
  function CountAddress(signers: seq<Authorizer>, x: Address): nat {
    if |signers| == 0 then 0
    else (if signers[0].address == x then 1 else 0) + CountAddress(signers[1..], x)
  }

  lemma {:induction false} CountAddressAppend(a: seq<Authorizer>, b: seq<Authorizer>, x: Address)
    ensures CountAddress(a + b, x) == CountAddress(a, x) + CountAddress(b, x)
  {
    if |a| == 0 {
      assert a + b == b;
    } else {
      assert (a + b)[1..] == a[1..] + b;
      CountAddressAppend(a[1..], b, x);
    }
  }

  lemma {:induction false} AuthorizerSignerCount(authorizers: seq<Authorizer>, proposer: Authorizer,
                                                payer: Authorizer, x: Address)
    ensures CountAddress(AuthorizerPayloadSigners(authorizers, proposer, payer), x)
         == if x == proposer.address || x == payer.address then 0 else CountAddress(authorizers, x)
  {
    if |authorizers| > 0 {
      AuthorizerSignerCount(authorizers[1..], proposer, payer, x);
      var a := authorizers[0];
      var rest := AuthorizerPayloadSigners(authorizers[1..], proposer, payer);
      if !(Equals(a, proposer) || Equals(a, payer)) {
        assert ([a] + rest)[1..] == rest;
      }
    }
  }

  /** How often each address signs the payload: never for the payer's address; once for
      the proposer's when it is not the payer's, however often it is listed as authorizer;
      and for any other address once per time it is listed as authorizer. */
  lemma PayloadSignerCount(proposer: Authorizer, payer: Authorizer, authorizers: seq<Authorizer>, x: Address)
    ensures CountAddress(PayloadSigners(proposer, payer, authorizers), x)
         == if x == payer.address then 0
            else if x == proposer.address then 1
            else CountAddress(authorizers, x)
  {
    var own := if Equals(proposer, payer) then [] else [proposer];
    CountAddressAppend(AuthorizerPayloadSigners(authorizers, proposer, payer), own, x);
    AuthorizerSignerCount(authorizers, proposer, payer, x);
    if !Equals(proposer, payer) {
      assert own[1..] == [];
    }
  }

  /** When no address is listed twice as authorizer, no address signs the payload twice. */
  lemma DistinctAuthorizersSignPayloadOnce(proposer: Authorizer, payer: Authorizer, authorizers: seq<Authorizer>)
    requires forall x :: CountAddress(authorizers, x) <= 1
    ensures forall x :: CountAddress(PayloadSigners(proposer, payer, authorizers), x) <= 1
  {
    forall x
      ensures CountAddress(PayloadSigners(proposer, payer, authorizers), x) <= 1
    {
      PayloadSignerCount(proposer, payer, authorizers, x);
    }
  }

  /** An authorizer listed twice signs the payload twice: role collapsing covers the
      proposer and the payer only, not repeated authorizers. */
  lemma RepeatedAuthorizerSignsTwice(a: Authorizer, proposer: Authorizer, payer: Authorizer)
    requires !Equals(a, proposer) && !Equals(a, payer)
    ensures CountAddress(PayloadSigners(proposer, payer, [a, a]), a.address) == 2
  {
    PayloadSignerCount(proposer, payer, [a, a], a.address);
    assert [a, a][1..] == [a];
    assert [a][1..] == [];
    assert CountAddress([a], a.address) == 1;
    assert CountAddress([a, a], a.address) == 2;
  }
}

=== FILE: transaction_json.dfy ===
/** The JSON responses for a signed transaction and for a transaction record.
    Addresses and identifiers are rendered by the SDK's opaque `Hex`; signature
    bytes by the lower-case hexadecimal of `fmt.Sprintf("%x", ...)`. */
module TransactionJson {
  import opened Wrappers
  import Hex
  import opened Transactions
  import opened SignerRoles

  datatype ProposalKeyJson = ProposalKeyJson(address: string, keyIndex: int, sequenceNumber: nat)

  datatype SignatureJson = SignatureJson(address: string, keyIndex: int, signature: string)

  datatype SignedTransactionJson = SignedTransactionJson(
    code: string,
    arguments: seq<Bytes>,
    referenceBlockId: string,
    gasLimit: nat,
    proposalKey: ProposalKeyJson,
    payer: string,
    authorizers: seq<string>,
    payloadSignatures: seq<SignatureJson>,
    envelopeSignatures: seq<SignatureJson>)

  datatype TransactionJsonResponse = TransactionJsonResponse(transactionId: string, transactionType: Type)

  function SignatureToJson(s: TxSignature, sdk: Sdk): SignatureJson {
    SignatureJson(sdk.addressHex(s.address), s.keyIndex, Hex.Encode(s.signature))
  }

  /** Signatures rendered one by one, in order; each rendering keeps the key index and
      lets the signature bytes be read back. */
  function SignaturesToJson(sigs: seq<TxSignature>, sdk: Sdk): (r: seq<SignatureJson>)
    ensures |r| == |sigs|
    ensures forall i :: 0 <= i < |r| ==>
              && r[i].address == sdk.addressHex(sigs[i].address)
              && r[i].keyIndex == sigs[i].keyIndex
              && Hex.Decode(r[i].signature) == Some(sigs[i].signature)
  {
    if |sigs| == 0 then []
    else
      Hex.DecodeEncode(sigs[0].signature);
      [SignatureToJson(sigs[0], sdk)] + SignaturesToJson(sigs[1..], sdk)
  }

  function AuthorizersToJson(addresses: seq<Address>, sdk: Sdk): (r: seq<string>)
    ensures |r| == |addresses|
    ensures forall i :: 0 <= i < |r| ==> r[i] == sdk.addressHex(addresses[i])
  {
    if |addresses| == 0 then [] else [sdk.addressHex(addresses[0])] + AuthorizersToJson(addresses[1..], sdk)
  }

  /** `SignedTransaction.ToJSONResponse`. */
  function SignedToJson(tx: FlowTx, sdk: Sdk): (r: SignedTransactionJson)
    ensures r.code == tx.script && r.arguments == tx.arguments && r.referenceBlockId == sdk.idHex(tx.referenceBlockId)
    ensures r.gasLimit == tx.gasLimit && r.payer == sdk.addressHex(tx.payer)
    ensures r.proposalKey.address == sdk.addressHex(tx.proposalKey.address)
    ensures r.proposalKey.keyIndex == tx.proposalKey.keyIndex && r.proposalKey.sequenceNumber == tx.proposalKey.sequenceNumber
    ensures r.authorizers == AuthorizersToJson(tx.authorizers, sdk)
    ensures r.payloadSignatures == SignaturesToJson(tx.payloadSignatures, sdk)
    ensures r.envelopeSignatures == SignaturesToJson(tx.envelopeSignatures, sdk)
    ensures |r.authorizers| == |tx.authorizers|
    ensures |r.payloadSignatures| == |tx.payloadSignatures| && |r.envelopeSignatures| == |tx.envelopeSignatures|
  {
    SignedTransactionJson(
      tx.script,
      tx.arguments,
      sdk.idHex(tx.referenceBlockId),
      tx.gasLimit,
      ProposalKeyJson(sdk.addressHex(tx.proposalKey.address), tx.proposalKey.keyIndex, tx.proposalKey.sequenceNumber),
      sdk.addressHex(tx.payer),
      AuthorizersToJson(tx.authorizers, sdk),
      SignaturesToJson(tx.payloadSignatures, sdk),
      SignaturesToJson(tx.envelopeSignatures, sdk))
  }

  /** `Transaction.ToJSONResponse`, without the events and timestamps. */
  function RecordToJson(t: Transaction): (r: TransactionJsonResponse)
    ensures r.transactionId == t.transactionId && r.transactionType == t.transactionType
  {
    TransactionJsonResponse(t.transactionId, t.transactionType)
  }

  ghost predicate Injective<X(!new), Y>(f: X -> Y) {
    forall a, b :: f(a) == f(b) ==> a == b
  }

  /** The JSON response loses none of the signing information: when the SDK renders
      distinct addresses as distinct text, two transactions with the same response have
      the same authorizers, signatures (bytes included), gas limit, key index and
      sequence number, and the same code and arguments. */
  lemma SignedJsonDeterminesSigning(a: FlowTx, b: FlowTx, sdk: Sdk)
    requires Injective(sdk.addressHex)
    requires SignedToJson(a, sdk) == SignedToJson(b, sdk)
    ensures a.authorizers == b.authorizers
    ensures a.payloadSignatures == b.payloadSignatures
    ensures a.envelopeSignatures == b.envelopeSignatures
    ensures a.payer == b.payer && a.proposalKey == b.proposalKey
    ensures a.gasLimit == b.gasLimit && a.script == b.script && a.arguments == b.arguments
  {
    SignaturesDetermined(a.payloadSignatures, b.payloadSignatures, sdk);
    SignaturesDetermined(a.envelopeSignatures, b.envelopeSignatures, sdk);
    var ja := AuthorizersToJson(a.authorizers, sdk);
    assert forall i :: 0 <= i < |a.authorizers| ==> sdk.addressHex(a.authorizers[i]) == ja[i];
  }

  lemma SignaturesDetermined(x: seq<TxSignature>, y: seq<TxSignature>, sdk: Sdk)
    requires Injective(sdk.addressHex)
    requires SignaturesToJson(x, sdk) == SignaturesToJson(y, sdk)
    ensures x == y
  {
    var jx := SignaturesToJson(x, sdk);
    forall i | 0 <= i < |x|
      ensures x[i] == y[i]
    {
      assert Hex.Decode(jx[i].signature) == Some(x[i].signature);
      assert sdk.addressHex(x[i].address) == jx[i].address;
    }
  }

  /** The response for the transaction a successful `New` produced shows the authorizers
      in input order after any already present, one payload signature per payload signer on
      top of those already present, one more envelope signature and the fixed gas limit. */
  lemma NewSignedResponse(record: Transaction, referenceBlockId: Identifier, tx: FlowTx, tType: Type,
                          proposer: Authorizer, payer: Authorizer, authorizers: seq<Authorizer>, sdk: Sdk)
    ensures var r := New(record, referenceBlockId, tx, tType, proposer, payer, authorizers, sdk);
            var j := SignedToJson(r.tx(), sdk);
            r.err().None? ==>
              && |j.authorizers| == |tx.authorizers| + |authorizers|
              && (forall i :: 0 <= i < |authorizers| ==>
                    j.authorizers[|tx.authorizers| + i] == sdk.addressHex(authorizers[i].address))
              && |j.payloadSignatures| == |tx.payloadSignatures| + |PayloadSigners(proposer, payer, authorizers)|
              && |j.envelopeSignatures| == |tx.envelopeSignatures| + 1
              && j.gasLimit == 9999
  {
    var r := New(record, referenceBlockId, tx, tType, proposer, payer, authorizers, sdk);
    NewSetsUnsignedFields(record, referenceBlockId, tx, tType, proposer, payer, authorizers, sdk);
    var all := tx.authorizers + Addresses(authorizers);
    assert forall i :: 0 <= i < |authorizers| ==> all[|tx.authorizers| + i] == authorizers[i].address;
    if r.err().None? {
      NewSuccess(record, referenceBlockId, tx, tType, proposer, payer, authorizers, sdk);
      var p := |tx.payloadSignatures|;
      assert |r.tx().payloadSignatures| == p + |r.tx().payloadSignatures[p..]|;
    }
  }

  /** The record's response after a successful `New` carries the given type and the id of
      the very transaction that was signed. */
  lemma NewRecordResponse(record: Transaction, referenceBlockId: Identifier, tx: FlowTx, tType: Type,
                          proposer: Authorizer, payer: Authorizer, authorizers: seq<Authorizer>, sdk: Sdk)
    ensures var r := New(record, referenceBlockId, tx, tType, proposer, payer, authorizers, sdk);
            r.err().None? ==> RecordToJson(r.record) == TransactionJsonResponse(sdk.idHex(sdk.id(r.tx())), tType)
  {
    NewRunsPlan(record, referenceBlockId, tx, tType, proposer, payer, authorizers, sdk);
  }
}

=== FILE: transactions.dfy ===
/** Assembly and multi-party signing of a Flow transaction (`New`), the record
    kept for it, and the JSON projections of both.

    The Flow SDK's signing, hashing and address rendering are foreign calls and
    enter as the opaque functions of an `Sdk` value. */
module Transactions {
  import opened Wrappers
  import Hex

  type byte = Hex.byte
  type Bytes = seq<byte>
  /** A Flow account address (raw bytes). */
  type Address = Bytes
  /** A Flow identifier: a block id or a transaction id (raw bytes). */
  type Identifier = Bytes
  /** Handle of an opaque signing capability bound to one account key. */
  type SignerHandle = nat
  type Error = string

  /** The gas limit every transaction is given. */
  const MaxGasLimit: nat := 9999

  /** One key of an account: its index and its current sequence number. */
  datatype Key = Key(index: int, sequenceNumber: nat)

  /** An account able to take part in a transaction: address, key and signer. */
  datatype Authorizer = Authorizer(address: Address, key: Key, signer: SignerHandle)

  /** Role collapsing compares accounts by address only; the key index plays no part. */
  predicate Equals(a: Authorizer, b: Authorizer) {
    a.address == b.address
  }

  datatype ProposalKey = ProposalKey(address: Address, keyIndex: int, sequenceNumber: nat)

  datatype TxSignature = TxSignature(address: Address, keyIndex: int, signature: Bytes)

  /** The Flow transaction under construction. */
  datatype FlowTx = FlowTx(
    script: string,
    arguments: seq<Bytes>,
    referenceBlockId: Identifier,
    gasLimit: nat,
    proposalKey: ProposalKey,
    payer: Address,
    authorizers: seq<Address>,
    payloadSignatures: seq<TxSignature>,
    envelopeSignatures: seq<TxSignature>)

  /** The classification a caller gives a transaction (general, token transfer, ...). */
  datatype Type = Type(tag: nat)

  datatype TransactionCode = TransactionCode(transactionId: string, code: string)

  datatype TransactionArgument = TransactionArgument(transactionId: string, index: int, argType: string, value: string)

  /** The stored record of a transaction. */
  datatype Transaction = Transaction(
    transactionId: string,
    transactionType: Type,
    code: TransactionCode,
    arguments: seq<TransactionArgument>,
    proposerAddress: string)

  /** Which part of the transaction a signature covers. */
  datatype Component = Payload | Envelope

  /** One call into a signing capability: who signs, with which key, which component. */
  datatype SignAction = SignAction(component: Component, address: Address, keyIndex: int, signer: SignerHandle)

  /** The foreign calls `New` and the JSON projection make.
      `sign` signs the given component of the transaction as it stands and may fail;
      `id` is the content hash of a transaction; the rest render values as text. */
  datatype Sdk = Sdk(
    sign: (SignAction, FlowTx) -> Result<Bytes, Error>,
    id: FlowTx -> Identifier,
    idHex: Identifier -> string,
    addressHex: Address -> string,
    formatAddress: Address -> string)

  function PayloadAction(a: Authorizer): SignAction {
    SignAction(Payload, a.address, a.key.index, a.signer)
  }

  function EnvelopeAction(a: Authorizer): SignAction {
    SignAction(Envelope, a.address, a.key.index, a.signer)
  }

  /** The signature a successful action leaves on the transaction, appended to its component. */
  function AddSignature(tx: FlowTx, action: SignAction, sig: Bytes): FlowTx {
    var s := TxSignature(action.address, action.keyIndex, sig);
    match action.component
    case Payload => tx.(payloadSignatures := tx.payloadSignatures + [s])
    case Envelope => tx.(envelopeSignatures := tx.envelopeSignatures + [s])
  }

  /** Progress of signing: the transaction so far, the signer calls made in order,
      and the error that stopped it, if any. */
  datatype Signing = Signing(tx: FlowTx, attempted: seq<SignAction>, err: Option<Error>)

  /** One signer call; on failure the transaction is left as it was. */
  function Attempt(st: Signing, action: SignAction, sdk: Sdk): (r: Signing)
    requires st.err.None?
    ensures r.attempted == st.attempted + [action]
    ensures r.err.Some? <==> sdk.sign(action, st.tx).Failure?
    ensures r.err.Some? ==> r.tx == st.tx && r.err.value == sdk.sign(action, st.tx).error
    ensures r.err.None? ==> r.tx == AddSignature(st.tx, action, sdk.sign(action, st.tx).value)
  {
    match sdk.sign(action, st.tx)
    case Failure(e) => Signing(st.tx, st.attempted + [action], Some(e))
    case Success(sig) => Signing(AddSignature(st.tx, action, sig), st.attempted + [action], None)
  }

  function Addresses(authorizers: seq<Authorizer>): (r: seq<Address>)
    ensures |r| == |authorizers|
    ensures forall i :: 0 <= i < |r| ==> r[i] == authorizers[i].address
  {
    if |authorizers| == 0 then [] else [authorizers[0].address] + Addresses(authorizers[1..])
  }

  /** The unsigned part of `New`: reference block, proposal key, payer, gas limit, authorizers. */
  function Prepare(tx: FlowTx, referenceBlockId: Identifier, proposer: Authorizer, payer: Authorizer,
                   authorizers: seq<Authorizer>): FlowTx
  {
    tx.(referenceBlockId := referenceBlockId,
        proposalKey := ProposalKey(proposer.address, proposer.key.index, proposer.key.sequenceNumber),
        payer := payer.address,
        gasLimit := MaxGasLimit,
        authorizers := tx.authorizers + Addresses(authorizers))
  }

  /** The authorizer loop of `New`: each authorizer that is neither proposer nor payer
      signs the payload, in order; the first failure ends the loop. */
  function SignAuthorizerPayloads(st: Signing, authorizers: seq<Authorizer>, proposer: Authorizer,
                                  payer: Authorizer, sdk: Sdk): Signing
    requires st.err.None?
    decreases |authorizers|
  {
    if |authorizers| == 0 then st
    else
      var a := authorizers[0];
      if Equals(a, proposer) || Equals(a, payer) then
        SignAuthorizerPayloads(st, authorizers[1..], proposer, payer, sdk)
      else
        var next := Attempt(st, PayloadAction(a), sdk);
        if next.err.Some? then next
        else SignAuthorizerPayloads(next, authorizers[1..], proposer, payer, sdk)
  }

  /** What `New` leaves behind: the signing progress and the record. */
  datatype Built = Built(signing: Signing, record: Transaction) {
    function tx(): FlowTx { signing.tx }
    function err(): Option<Error> { signing.err }
  }

  /** `New`: fill in the transaction, collect the signatures in the order the network
      requires, and on success complete the record with proposer, type and id. */
  function New(record: Transaction, referenceBlockId: Identifier, tx: FlowTx, tType: Type,
               proposer: Authorizer, payer: Authorizer, authorizers: seq<Authorizer>, sdk: Sdk): (r: Built)
    ensures r.err().Some? ==> r.record == record
    ensures r.err().None? ==>
              r.record == record.(proposerAddress := sdk.formatAddress(proposer.address),
                                  transactionType := tType,
                                  transactionId := sdk.idHex(sdk.id(r.tx())))
  {
    var start := Signing(Prepare(tx, referenceBlockId, proposer, payer, authorizers), [], None);
    var afterAuthorizers := SignAuthorizerPayloads(start, authorizers, proposer, payer, sdk);
    if afterAuthorizers.err.Some? then Built(afterAuthorizers, record)
    else
      var afterProposer :=
        if !Equals(proposer, payer) then Attempt(afterAuthorizers, PayloadAction(proposer), sdk)
        else afterAuthorizers;
      if afterProposer.err.Some? then Built(afterProposer, record)
      else
        var afterPayer := Attempt(afterProposer, EnvelopeAction(payer), sdk);
        if afterPayer.err.Some? then Built(afterPayer, record)
        else
          Built(afterPayer,
                record.(proposerAddress := sdk.formatAddress(proposer.address),
                        transactionType := tType,
                        transactionId := sdk.idHex(sdk.id(afterPayer.tx))))
  }
}

=== FILE: worker_pool.dfy ===
/** The worker pool with its goroutines stripped away: a record holding the bounded
    FIFO queue (a buffered channel of capacity `capacity`) and the number of workers.
    Admission (`AddJob`, `tryEnqueue`) and the workers' draining of the queue are
    modelled as sequential steps. A queue entry `None` is the nil job that makes the
    worker receiving it stop. */
module WorkerPool {
  import opened Wrappers
  import opened Jobs

  datatype Pool = Pool(capacity: nat, workerCount: nat, queue: seq<Option<Job>>)

  /** The queue never exceeds its capacity and every job waiting in it has been admitted. */
  predicate Valid(p: Pool) {
    && |p.queue| <= p.capacity
    && forall i :: 0 <= i < |p.queue| && p.queue[i].Some? ==> p.queue[i].value.state == Accepted
  }

  /** `NewWorkerPool`: an empty queue of the given capacity. */
  function NewWorkerPool(capacity: nat, workerCount: nat): (p: Pool)
    ensures Valid(p) && p.queue == []
    ensures p.capacity == capacity && p.workerCount == workerCount
  {
    Pool(capacity, workerCount, [])
  }

  datatype Enqueued = Enqueued(ok: bool, pool: Pool)

  /** `tryEnqueue`: a send on the buffered channel that never blocks. It succeeds exactly
      when the buffer has room, and then the job joins the tail of the queue. */
  function TryEnqueue(pool: Pool, job: Job): (r: Enqueued)
    ensures r.ok <==> |pool.queue| < pool.capacity
    ensures r.ok ==> r.pool == pool.(queue := pool.queue + [Some(job)])
    ensures !r.ok ==> r.pool == pool
  {
    if |pool.queue| < pool.capacity then Enqueued(true, pool.(queue := pool.queue + [Some(job)]))
    else Enqueued(false, pool)
  }

  datatype AddError = InsertFailed(message: string) | JobQueueFull(message: string)

  /** What `AddJob` leaves: the pool, the job handed back, the error returned, and the
      store calls made in order. */
  datatype Added = Added(pool: Pool, job: Job, err: Option<AddError>, calls: seq<StoreCall>)

  /** `AddJob`: create the job in `Init` and insert it; then try to enqueue it. Admitted,
      it becomes `Accepted`; turned away, it becomes `NoAvailableWorkers` and a queue-full
      error is returned. Either new state is written to the store, whose failure is only
      logged. (The source enqueues the job and then sets its state; the queue holds the
      same job, so the queued value is the admitted one.) */
  function AddJob(pool: Pool, work: WorkId, store: Store): (r: Added)
    ensures |r.calls| >= 1 && r.calls[0] == Insert(NewJob(work), store.insertJob(NewJob(work)).err)
    ensures r.job.id == store.insertJob(NewJob(work)).id && r.job.work == work
    ensures r.job == NewJob(work).(id := store.insertJob(NewJob(work)).id, state := r.job.state)
    ensures store.insertJob(NewJob(work)).err.Some? ==>
              && r.job.state == Init
              && r.err == Some(InsertFailed(store.insertJob(NewJob(work)).err.value))
              && r.pool == pool
              && |r.calls| == 1
    ensures store.insertJob(NewJob(work)).err.None? ==>
              && (r.err.None? <==> |pool.queue| < pool.capacity)
              && |r.calls| == 2
              && r.calls[1] == UpdateCall(store, r.job)
              && Transition(Init, r.job.state)
    ensures r.err.None? ==> r.job.state == Accepted && r.pool.queue == pool.queue + [Some(r.job)]
    ensures r.err.Some? ==> r.pool == pool
    ensures r.err.Some? && r.err.value.JobQueueFull? ==>
              r.job.state == NoAvailableWorkers && r.err.value.message == StateName(NoAvailableWorkers)
    ensures store.insertJob(NewJob(work)).err.None? && |pool.queue| >= pool.capacity ==>
              r.job.state == NoAvailableWorkers && r.err == Some(JobQueueFull(StateName(NoAvailableWorkers)))
    ensures r.pool.capacity == pool.capacity && r.pool.workerCount == pool.workerCount
  {
    var inserted := store.insertJob(NewJob(work));
    var job := NewJob(work).(id := inserted.id);
    var insertCall := Insert(NewJob(work), inserted.err);
    if inserted.err.Some? then
      Added(pool, job, Some(InsertFailed(inserted.err.value)), [insertCall])
    else
      var accepted := job.(state := Accepted);
      var enq := TryEnqueue(pool, accepted);
      if !enq.ok then
        var rejected := job.(state := NoAvailableWorkers);
        Added(pool, rejected, Some(JobQueueFull(StateName(rejected.state))), [insertCall, UpdateCall(store, rejected)])
      else
        Added(enq.pool, accepted, None, [insertCall, UpdateCall(store, accepted)])
  }

  /** Admission keeps the pool valid. */
  lemma AddJobPreservesValid(pool: Pool, work: WorkId, store: Store)
    requires Valid(pool)
    ensures Valid(AddJob(pool, work, store).pool)
  {
    var r := AddJob(pool, work, store);
    if r.err.None? {
      assert r.pool.queue == pool.queue + [Some(r.job)];
      assert |r.pool.queue| <= pool.capacity;
    }
  }

  /** A failing `UpdateJob` changes neither the pool, nor the job handed back, nor the
      error returned: two stores that agree on inserts give the same admission. */
  lemma AddJobIgnoresUpdateFailure(pool: Pool, work: WorkId, store: Store, other: Store)
    requires store.insertJob(NewJob(work)) == other.insertJob(NewJob(work))
    ensures AddJob(pool, work, store).pool == AddJob(pool, work, other).pool
    ensures AddJob(pool, work, store).job == AddJob(pool, work, other).job
    ensures AddJob(pool, work, store).err == AddJob(pool, work, other).err
  {
  }

  /** The two orders in which, after the send of `AddJob`, its own state assignment and a
      worker's processing of the same job can happen. */
  datatype Interleaving = AdmitterFirst | WorkerFirst

  /** The job as the source leaves it: `AddJob` sends the job while it is still `Init` and
      sets it `Accepted` only after the send succeeded, so a worker that takes the job at
      once processes it first and the later assignment overwrites its terminal state. */
  function AdmitAsWritten(sent: Job, outcome: WorkOutcome, store: Store, order: Interleaving): (j: Job)
    requires sent.state == Init
    ensures order == AdmitterFirst ==> Terminal(j.state)
    ensures order == WorkerFirst ==> j.state == Accepted
  {
    match order
    case AdmitterFirst => Process(sent.(state := Accepted), outcome, store).job
    case WorkerFirst => Process(sent, outcome, store).job.(state := Accepted)
  }

  /** With the worker first, the outcome of the work is lost and `Wait(true)` keeps polling
      on a job that has already finished. */
  lemma AdmitAsWrittenLosesOutcome(sent: Job, outcome: WorkOutcome, store: Store)
    requires sent.state == Init
    ensures Terminal(Process(sent, outcome, store).job.state)
    ensures Wait(true, AdmitAsWritten(sent, outcome, store, WorkerFirst)) == StillWaiting
    ensures Wait(true, AdmitAsWritten(sent, outcome, store, AdmitterFirst)) == Returned(outcome.err)
  {
  }

  /** In `AddJob` as modelled the job is `Accepted` before it reaches the queue and nothing
      writes its state after the send, so whichever way the worker's processing interleaves
      with the rest of `AddJob`, waiting on the admitted job reports the work's outcome. */
  lemma AdmittedJobReportsOutcome(pool: Pool, work: WorkId, store: Store, outcome: WorkOutcome)
    requires AddJob(pool, work, store).err.None?
    ensures var r := AddJob(pool, work, store);
      && r.pool.queue[|r.pool.queue| - 1] == Some(r.job)
      && r.job.state == Accepted
      && Wait(true, Process(r.job, outcome, store).job) == Returned(outcome.err)
  {
    var r := AddJob(pool, work, store);
    assert r.pool.queue == pool.queue + [Some(r.job)];
  }

  /** An admitted job whose work succeeds ends `Complete` with exactly the carrier's
      result and transaction id and no error text: nothing from admission leaks into it. */
  lemma AdmittedJobCompletesClean(pool: Pool, work: WorkId, store: Store, carrier: Jobs.Result)
    requires AddJob(pool, work, store).err.None?
    ensures var r := AddJob(pool, work, store);
      var done := Process(r.job, WorkOutcome(carrier, None), store).job;
      && done.id == store.insertJob(NewJob(work)).id && done.work == work
      && done.state == Complete && done.error == ""
      && done.result == carrier.result && done.transactionId == carrier.transactionId
  {
  }

  /** Several submissions in a row, each seeing the pool the previous one left. */
  function SubmitAll(pool: Pool, works: seq<WorkId>, store: Store): (outs: seq<Added>)
    ensures |outs| == |works|
    decreases |works|
  {
    if |works| == 0 then []
    else
      var first := AddJob(pool, works[0], store);
      [first] + SubmitAll(first.pool, works[1..], store)
  }

  /** Admission control: while nothing is dequeued and the store accepts every insert,
      exactly the submissions that still find room are admitted and every later one is
      turned away with a queue-full error in state `NoAvailableWorkers`. */
  lemma {:induction false} AdmissionControl(pool: Pool, works: seq<WorkId>, store: Store)
    requires forall j :: store.insertJob(j).err.None?
    ensures var outs := SubmitAll(pool, works, store);
            forall i :: 0 <= i < |outs| ==>
              && (outs[i].err.None? <==> |pool.queue| + i < pool.capacity)
              && (outs[i].err.None? ==> outs[i].job.state == Accepted)
              && (outs[i].err.Some? ==> outs[i].job.state == NoAvailableWorkers && outs[i].err.value.JobQueueFull?)
    decreases |works|
  {
    if |works| > 0 {
      var first := AddJob(pool, works[0], store);
      var outs := SubmitAll(pool, works, store);
      AdmissionControl(first.pool, works[1..], store);
      assert outs[1..] == SubmitAll(first.pool, works[1..], store);
      if first.err.None? {
        assert |first.pool.queue| == |pool.queue| + 1;
      } else {
        assert first.pool == pool;
        assert |pool.queue| >= pool.capacity;
      }
      forall i | 1 <= i < |outs|
        ensures outs[i] == SubmitAll(first.pool, works[1..], store)[i - 1]
      {
      }
    }
  }

  /** The jobs in a stretch of queue, in order, without the nil entries. */
  function QueuedJobs(q: seq<Option<Job>>): (r: seq<Job>)
    ensures |r| <= |q|
  {
    if |q| == 0 then []
    else (if q[0].Some? then [q[0].value] else []) + QueuedJobs(q[1..])
  }

  function NilCount(q: seq<Option<Job>>): nat {
    if |q| == 0 then 0 else (if q[0].None? then 1 else 0) + NilCount(q[1..])
  }

  datatype Drained = Drained(processed: seq<Job>, rest: seq<Option<Job>>, calls: seq<StoreCall>)

  /** The workers draining the queue. Entries leave the channel in FIFO order whichever
      worker takes them; a worker that takes a nil entry stops, and once no worker is
      left the remaining entries stay where they are. `run` is what each job's work
      function does. */
  function Drain(queue: seq<Option<Job>>, workers: nat, run: WorkId -> WorkOutcome, store: Store): (d: Drained)
    ensures |d.rest| <= |queue| && |d.processed| == |d.calls|
    ensures forall i :: 0 <= i < |d.calls| ==> d.calls[i] == UpdateCall(store, d.processed[i])
    decreases |queue|
  {
    if workers == 0 || |queue| == 0 then Drained([], queue, [])
    else
      match queue[0]
      case None => Drain(queue[1..], workers - 1, run, store)
      case Some(job) =>
        var p := Process(job, run(job.work), store);
        var d := Drain(queue[1..], workers, run, store);
        Drained([p.job] + d.processed, d.rest, [p.call] + d.calls)
  }

  /** How many entries the workers take off the queue. */
  function Taken(queue: seq<Option<Job>>, workers: nat): (t: nat)
    ensures t <= |queue|
    decreases |queue|
  {
    if workers == 0 || |queue| == 0 then 0
    else 1 + Taken(queue[1..], if queue[0].None? then workers - 1 else workers)
  }

  /** Each job run and then processed, in order. */
  function ProcessAll(jobs: seq<Job>, run: WorkId -> WorkOutcome, store: Store): (r: seq<Job>)
    ensures |r| == |jobs|
    ensures forall i :: 0 <= i < |r| ==> r[i] == Process(jobs[i], run(jobs[i].work), store).job
  {
    if |jobs| == 0 then []
    else [Process(jobs[0], run(jobs[0].work), store).job] + ProcessAll(jobs[1..], run, store)
  }

  lemma TakenPrefix(queue: seq<Option<Job>>, t: nat)
    requires 0 < t <= |queue|
    ensures queue[..t][0] == queue[0] && queue[..t][1..] == queue[1..][..t - 1]
  {
  }

  lemma QueuedJobsPrefix(queue: seq<Option<Job>>, t: nat)
    requires 0 < t <= |queue|
    ensures QueuedJobs(queue[..t])
         == (if queue[0].Some? then [queue[0].value] else []) + QueuedJobs(queue[1..][..t - 1])
  {
    TakenPrefix(queue, t);
  }

  lemma ProcessAllCons(job: Job, jobs: seq<Job>, run: WorkId -> WorkOutcome, store: Store)
    ensures ProcessAll([job] + jobs, run, store) == [Process(job, run(job.work), store).job] + ProcessAll(jobs, run, store)
  {
    assert ([job] + jobs)[1..] == jobs;
  }

  /** Draining leaves exactly the entries after those taken, untouched. */
  lemma {:induction false} DrainRest(queue: seq<Option<Job>>, workers: nat, run: WorkId -> WorkOutcome, store: Store)
    ensures Drain(queue, workers, run, store).rest == queue[Taken(queue, workers)..]
    decreases |queue|
  {
    if workers > 0 && |queue| > 0 {
      var w := if queue[0].None? then workers - 1 else workers;
      DrainRest(queue[1..], w, run, store);
      assert queue[1..][Taken(queue[1..], w)..] == queue[Taken(queue, workers)..];
    }
  }

  /** One step of `DrainProcessed`: from the entries after the first to the whole queue. */
  lemma DrainProcessedStep(queue: seq<Option<Job>>, workers: nat, run: WorkId -> WorkOutcome, store: Store)
    requires workers > 0 && |queue| > 0
    requires var w := if queue[0].None? then workers - 1 else workers;
      Drain(queue[1..], w, run, store).processed
      == ProcessAll(QueuedJobs(queue[1..][..Taken(queue[1..], w)]), run, store)
    ensures Drain(queue, workers, run, store).processed
         == ProcessAll(QueuedJobs(queue[..Taken(queue, workers)]), run, store)
  {
    var w := if queue[0].None? then workers - 1 else workers;
    var t := Taken(queue, workers);
    var tail := QueuedJobs(queue[1..][..t - 1]);
    assert t - 1 == Taken(queue[1..], w);
    QueuedJobsPrefix(queue, t);
    match queue[0]
    case None =>
      assert Drain(queue, workers, run, store) == Drain(queue[1..], w, run, store);
      assert QueuedJobs(queue[..t]) == tail;
    case Some(job) =>
      assert Drain(queue, workers, run, store).processed
          == [Process(job, run(job.work), store).job] + Drain(queue[1..], w, run, store).processed;
      assert QueuedJobs(queue[..t]) == [job] + tail;
      ProcessAllCons(job, tail, run, store);
  }

  /** The jobs among the entries taken are processed in queue order, each as `process` does. */
  lemma {:induction false} DrainProcessed(queue: seq<Option<Job>>, workers: nat, run: WorkId -> WorkOutcome, store: Store)
    ensures Drain(queue, workers, run, store).processed
         == ProcessAll(QueuedJobs(queue[..Taken(queue, workers)]), run, store)
    decreases |queue|
  {
    if workers == 0 || |queue| == 0 {
      assert queue[..Taken(queue, workers)] == [];
    } else {
      DrainProcessed(queue[1..], if queue[0].None? then workers - 1 else workers, run, store);
      DrainProcessedStep(queue, workers, run, store);
    }
  }

  /** Workers stop only when the queue is empty or every worker has taken a nil entry. */
  lemma {:induction false} TakenStops(queue: seq<Option<Job>>, workers: nat)
    ensures NilCount(queue[..Taken(queue, workers)]) <= workers
    ensures Taken(queue, workers) < |queue| ==> NilCount(queue[..Taken(queue, workers)]) == workers
    decreases |queue|
  {
    var t := Taken(queue, workers);
    if workers == 0 || |queue| == 0 {
      assert queue[..t] == [];
    } else {
      var w := if queue[0].None? then workers - 1 else workers;
      TakenStops(queue[1..], w);
      TakenPrefix(queue, t);
    }
  }

  /** A prefix of the queue holds no more nil entries than the whole queue. */
  lemma {:induction false} NilCountPrefix(q: seq<Option<Job>>, k: nat)
    requires k <= |q|
    ensures NilCount(q[..k]) <= NilCount(q)
  {
    if k > 0 {
      NilCountPrefix(q[1..], k - 1);
      assert q[..k][1..] == q[1..][..k - 1];
    }
  }

  /** The jobs among queue entries that are all `Accepted` are all `Accepted`. */
  lemma {:induction false} QueuedJobsAccepted(q: seq<Option<Job>>)
    requires forall i :: 0 <= i < |q| && q[i].Some? ==> q[i].value.state == Accepted
    ensures forall j :: 0 <= j < |QueuedJobs(q)| ==> QueuedJobs(q)[j].state == Accepted
  {
    if |q| > 0 {
      QueuedJobsAccepted(q[1..]);
      assert forall i :: 1 <= i < |q| ==> q[1..][i - 1] == q[i];
    }
  }

  /** In a valid pool every job a worker takes was `Accepted`, and processing it is an
      edge of the state graph out of `Accepted`. */
  lemma DrainFollowsGraph(pool: Pool, run: WorkId -> WorkOutcome, store: Store)
    requires Valid(pool)
    ensures var d := Drain(pool.queue, pool.workerCount, run, store);
      var taken := QueuedJobs(pool.queue[..Taken(pool.queue, pool.workerCount)]);
      && |d.processed| == |taken|
      && forall i :: 0 <= i < |taken| ==>
           taken[i].state == Accepted && Transition(taken[i].state, d.processed[i].state)
  {
    var prefix := pool.queue[..Taken(pool.queue, pool.workerCount)];
    assert forall i :: 0 <= i < |prefix| ==> prefix[i] == pool.queue[i];
    QueuedJobsAccepted(prefix);
    DrainProcessed(pool.queue, pool.workerCount, run, store);
    var taken := QueuedJobs(prefix);
    forall i | 0 <= i < |taken|
      ensures Transition(taken[i].state, Process(taken[i], run(taken[i].work), store).job.state)
    {
      ProcessFollowsGraph(taken[i], run(taken[i].work), store, store);
    }
  }

  /** What draining amounts to: processed jobs keep queue order and end `Complete` or
      `Error`, never `Failed`; with fewer nil entries than workers every queued job is
      processed and nothing is left. */
  lemma DrainSummary(queue: seq<Option<Job>>, workers: nat, run: WorkId -> WorkOutcome, store: Store)
    ensures var d := Drain(queue, workers, run, store);
            && |d.rest| <= |queue| && d.rest == queue[|queue| - |d.rest|..]
            && (var taken := QueuedJobs(queue[..|queue| - |d.rest|]);
                |d.processed| == |taken| && forall i :: 0 <= i < |taken| ==> d.processed[i].id == taken[i].id)
            && (forall i :: 0 <= i < |d.processed| ==> d.processed[i].state == Complete || d.processed[i].state == Error)
            && (NilCount(queue) < workers ==> d.rest == [] && |d.processed| == |QueuedJobs(queue)|)
  {
    var d := Drain(queue, workers, run, store);
    var t := Taken(queue, workers);
    DrainRest(queue, workers, run, store);
    DrainProcessed(queue, workers, run, store);
    TakenStops(queue, workers);
    NilCountPrefix(queue, t);
    assert |queue| - |d.rest| == t;
    if NilCount(queue) < workers {
      assert queue[..|queue|] == queue;
    }
  }

  /** `Stop` closes the queue and waits for the workers: they take entries until the queue
      is empty or each has taken a nil entry. */
  method Stop(pool: Pool, run: WorkId -> WorkOutcome, store: Store) returns (d: Drained)
    ensures d == Drain(pool.queue, pool.workerCount, run, store)
    ensures |d.rest| <= |pool.queue| && d.rest == pool.queue[|pool.queue| - |d.rest|..]
    ensures var taken := QueuedJobs(pool.queue[..|pool.queue| - |d.rest|]);
            |d.processed| == |taken| && forall i :: 0 <= i < |taken| ==> d.processed[i].id == taken[i].id
    ensures forall i :: 0 <= i < |d.processed| ==> d.processed[i].state == Complete || d.processed[i].state == Error
    ensures NilCount(pool.queue) < pool.workerCount ==> d.rest == [] && |d.processed| == |QueuedJobs(pool.queue)|
  {
    ghost var all := Drain(pool.queue, pool.workerCount, run, store);
    var rest := pool.queue;
    var workers := pool.workerCount;
    var processed: seq<Job> := [];
    var calls: seq<StoreCall> := [];
    while rest != [] && workers > 0
      invariant Drain(rest, workers, run, store).rest == all.rest
      invariant processed + Drain(rest, workers, run, store).processed == all.processed
      invariant calls + Drain(rest, workers, run, store).calls == all.calls
      decreases |rest|
    {
      var head := rest[0];
      if head.None? {
        workers := workers - 1;
      } else {
        var p := Process(head.value, run(head.value.work), store);
        ghost var next := Drain(rest[1..], workers, run, store);
        assert processed + ([p.job] + next.processed) == (processed + [p.job]) + next.processed;
        assert calls + ([p.call] + next.calls) == (calls + [p.call]) + next.calls;
        processed := processed + [p.job];
        calls := calls + [p.call];
      }
      rest := rest[1..];
    }
    assert processed + [] == processed && calls + [] == calls;
    d := Drained(processed, rest, calls);
    DrainSummary(pool.queue, pool.workerCount, run, store);
  }
}

=== FILE: wrappers.dfy ===
/** Failure-carrying values shared by the transaction and job models.
    Go reports failure through an extra `error` return; here an operation that
    can fail returns an `Option` (no value) or a `Result` (value or error). */
module Wrappers {

  datatype Option<+T> = None | Some(value: T)

  datatype Result<+R, +E> = Success(value: R) | Failure(error: E)
}
